=== FILE: README.md ===
# Brainwave voice dictation: a verified model of the recording client and the status server

The app is a browser page that records speech and a small FastAPI server. The page
(`static/new_main.js`) does the following:

- It records the microphone with a MediaRecorder, uploads the clip and shows the transcription.
- It keeps a WebSocket "status channel" open to the server and tells it when recording starts and stops.
- It shows the connection state as a coloured dot.
- It ticks an `MM:SS` timer while recording.
- It offers three enhancement buttons. Readability and correctness stream their reply text; ask AI returns one JSON answer.

The server (`simple_server.py`) greets each status-channel connection, answers pings and
recording-status messages, normalises what the speech-to-text service returns, and refuses
enhancement requests whose prompt is missing.

The model has these modules:

- `Wrappers`: `Option`.
- `Strings`: the JavaScript built-ins the page relies on, with proofs.
  - `toString` of integers, `padStart` and `trim`.
  - `+=` accumulation (`Join`) and the `size > 0` chunk filter (`NonEmpty`).
- `Json`: parsed JSON values, `dict.get` and Python truthiness.
  - A frame is either a parsed value or unparseable; parsing text is not modelled.
- `Timer`: the elapsed-time display, including JavaScript's truncating `%` for negative elapsed times.
- `StatusIndicator`: `updateConnectionStatus`, mapping a status to a CSS class and a colour.
- `Enhancement`: what each enhancement request shows once it settles.
  - `Frames` gives the display after every chunk.
  - `StreamedWrites` gives every value the display takes.
- `Client`: the page's global variables as the class `Page`, with one method per handler.
  - Everything the browser decides is a parameter: whether the socket is open, whether the microphone is granted, whether a recorder can be created and started, the clock, and what each request got back.
  - `Valid()` is the invariant every handler keeps. It has five parts:
    - The microphone is granted at most once (`micGrants == (streamInitialized ? 1 : 0)`).
    - The auto start takes effect at most once.
    - The timer runs exactly while recording.
    - While recording, the microphone, a recorder and the auto-start flag are all in place.
    - Unless the ghost flag `desynced` is set, the `recording` values of the envelopes sent (`StatusValues(sent)`) alternate `true, false, true, …` and end with the current state. The flag is set when a start or stop is not announced because the socket is closed, and when a recorder throws on `start()` after `true` was already sent.
- `StatusChannel`: the server's receive loop as a method over the frames the page sends (`ServeStatusChannel`), proved against the reply function `Replies`.
- `Endpoints`: the transcription endpoint's normalisation and error path, and the prompt checks of the three enhancement endpoints.
- `Protocol`: both ends together.
  - Every envelope the page sends gets exactly the reply it is owed.
  - The server's frames set the page's dot as intended.
  - The server's error replies show up on the page as stated.

Some behaviour of the code is easy to misread; the model states what the code does:

- **Status alternation.** The `recording_status` values sent alternate strictly, starting with `true`, only while nothing is lost. A start or stop while the socket is not open sends nothing (`ClosedSocketScenario`: the server hears only `false`). `true` is sent before `mediaRecorder.start()`, and if that throws, the page stays idle; the next start sends `true` again (`StartFailureScenario`: `true, true`). The ghost flag `desynced` records either event, and `Valid()` promises alternation only while it is unset.
- **Microphone requests.** `initMediaRecorder` asks for the microphone on every start until one is granted, because `streamInitialized` stays false after a refusal. The model counts requests and grants separately and proves that grants are at most one.
- **Failed start.** When the microphone or the recorder cannot be obtained, `startRecording` returns before touching the dot, so it stays as it was; only a recorder that throws on `start()` sets 'idle'.
- **Upload errors.** A non-ok upload shows `Transcription failed: Transcription failed: <statusText>`. The error thrown already carries the prefix and the catch block adds it again (`TranscriptAfterUpload`, `Protocol.FailedTranscriptionShown`).
- **Empty chunks.** The clip is the concatenation of the non-empty chunks only. That is the same bytes as all chunks joined (`Strings.JoinNonEmpty`).

## Model

| member | source | states |
|---|---|---|
| Strings.NatToString | static/new_main.js:60 | `toString()` of a non-negative number is a non-empty digit string with no leading zero, one digit exactly below 10 |
| Strings.ParseNatToString | static/new_main.js:60 | reading the printed decimal back gives the number printed |
| Strings.ParseNatLeadingZero | static/new_main.js:60 | a '0' put in front by padding does not change the value read back |
| Strings.IntToString | static/new_main.js:60 | a negative number prints as '-' followed by its magnitude, any other one as its digits |
| Strings.PadStart | static/new_main.js:60 | `padStart(width, fill)` has length max(|s|, width) and everything in front of `s` is the fill |
| Strings.PadStartKeepsText | static/new_main.js:60 | the padded text ends with the original text |
| Strings.TrimStartSpec | static/new_main.js:286 | `trim()` from the left drops only whitespace and stops at the first other character |
| Strings.TrimEndSpec | static/new_main.js:286 | `trim()` from the right drops only whitespace and stops at the last other character |
| Strings.BlankIffAllWhitespace | static/new_main.js:286 | `!text.trim()` holds exactly when every character is whitespace |
| Strings.JoinAppend | static/new_main.js:315 | `+=` accumulation over two runs of chunks is the two accumulations concatenated |
| Strings.NonEmptySpec | static/new_main.js:145-146 | the `size > 0` filter keeps no more chunks than it is given, and none of them empty |
| Strings.NonEmptyAppend | static/new_main.js:145-146 | filtering deliveries one at a time is filtering them all at once |
| Strings.JoinNonEmpty | static/new_main.js:155 | leaving out empty chunks does not change the blob |
| Json.Field | simple_server.py:87 | `data.get(key)` is present exactly for an object holding the key, and is then the value stored under it |
| Timer.JsRemainder | static/new_main.js:58 | JavaScript `%`: the dividend is the divisor times the quotient truncated toward zero plus the remainder; the remainder has the dividend's sign and is below the divisor in size; on non-negative values it is the mathematical remainder |
| Timer.MinutesOf | static/new_main.js:57 | `Math.floor(elapsed / 60000)` is the whole number of minutes that brackets `elapsed` |
| Timer.SecondsOf | static/new_main.js:58 | for a non-negative elapsed time the seconds are `(elapsed % 60000) / 1000`, in 0..59; for a negative one they lie in -60..0 |
| Timer.SecondsField | static/new_main.js:60 | a seconds value in 0..59 is shown as exactly two digits that read back as it |
| Timer.MinutesField | static/new_main.js:60 | the minutes are shown as at least two digits that read back as them |
| Timer.ClockTextReadsBack | static/new_main.js:60 | `MM:SS` made of two digit fields splits back into both at its last ':' |
| Timer.FormatElapsedReadsBack | static/new_main.js:55-61 | for elapsed >= 0 the display is `MM:SS`: minutes `elapsed / 60000` before the ':', then two digits of seconds `(elapsed % 60000) / 1000` |
| Timer.FirstSecondShowsReset | static/new_main.js:53-60 | during the first second the ticking display equals the reset text "00:00" |
| Timer.NegativeElapsedShowsMinus | static/new_main.js:56-60 | a clock stepped backwards shows a leading '-' |
| Timer.NegativeElapsedExample | static/new_main.js:56-60 | 59001 ms before the start the display is "-1:-60", so the seconds field is not confined to 00..59 |
| StatusIndicator.IndicatorFor | static/new_main.js:69-93 | 'connected' and 'idle' give green, 'recording' orange, 'processing' blue, anything else red with no class; the class is 'connected' exactly for 'connected', 'idle' exactly for 'idle' and 'connecting' exactly for 'recording' and 'processing'; each of these in both directions |
| StatusIndicator.IndicatorForField | static/new_main.js:108-110 | a pushed string status gives the dot of that string; a missing or non-string status gives the disconnected look; the dot differs from that look exactly for the four known strings |
| Enhancement.StreamError | static/new_main.js:303-322 | a streamed request fails exactly when fetch rejects, the status is not 2xx or the reader fails |
| Enhancement.Frames | static/new_main.js:310-318 | after the k-th chunk the display holds the first k chunks joined |
| Enhancement.StreamedText | static/new_main.js:285-327 | a settled streamed request shows all chunks joined, or the kind's error prefix and the message |
| Enhancement.StreamedWritesSettle | static/new_main.js:291-322 | the display is cleared first and its last value is the settled text |
| Enhancement.FramesExtend | static/new_main.js:314-316 | progressive rendering only extends: every earlier frame is a prefix of every later one |
| Enhancement.StreamedHello | static/new_main.js:310-318 | fragments "Hel", "lo" show "", "Hel", "Hello" in turn |
| Enhancement.AnswerText | static/new_main.js:346-356 | ask AI shows the answer of an ok response; any failure shows text starting with its error prefix: after it, a bad status shows "HTTP error! status: N", and a rejected fetch or an unreadable body shows the error's message |
| Client.EnvelopeJson | static/new_main.js:219-222 | every envelope the page sends is an object with a string `type` |
| Client.StatusValuesAppend | static/new_main.js:218-223 | sending a status envelope adds its `recording` value to the heard values; any other envelope adds nothing |
| Client.AgreesAfterStart | static/new_main.js:214-223 | sending `true` when the server last heard `false` (or nothing) keeps the log alternating and ending in `true` |
| Client.AgreesAfterStop | static/new_main.js:248-256 | sending `false` when the server last heard `true` keeps the log alternating and ending in `false` |
| Client.TranscriptAfterUpload | static/new_main.js:179-197 | an ok upload shows its transcription; every failure shows text starting with "Transcription failed: ": a bad status shows that prefix twice before the status text, and a rejected upload or an unreadable body shows it once before the error's message |
| Client.Page.SetButton | static/new_main.js:289-290 | setting one button leaves the other two unchanged |
| Client.Page.constructor | static/new_main.js:1-11 | the page loads idle, with no microphone, no recorder and empty buffers; the disconnected dot, "00:00" and the button labels come from the page's markup and are assumed |
| Client.Page.InitMediaRecorder | static/new_main.js:125-165 | the microphone is requested only while none is granted; the chunk buffer is emptied once a microphone exists; success exactly when a microphone is (or becomes) available and a recorder is created |
| Client.Page.StartRecording | static/new_main.js:203-243 | nothing changes while recording; otherwise the displays are cleared, a recorder exists afterwards exactly when init succeeds, recording starts exactly when init succeeds and the recorder starts, and `true` is sent exactly when init succeeds and the socket is open; without a microphone the chunk buffer is kept; the invariant is kept |
| Client.Page.InitAndBegin | static/new_main.js:210-242 | a recorder exists afterwards exactly when init succeeds; recording starts exactly when init succeeds and the recorder starts, with "00:00" and the orange dot, and a recorder that throws gives the 'idle' dot; `true` is sent exactly when init succeeds and the socket is open; a failed init leaves the dot, timer and sent envelopes as they were, and without a microphone the chunk buffer too |
| Client.Page.ClearDisplays | static/new_main.js:207-208 | both displays are emptied |
| Client.Page.BeginRecording | static/new_main.js:214-242 | with a recorder in place, the page is auto-started, sends `true` if the socket is open, and is recording with timer "00:00" and the orange dot if the recorder starts, or idle otherwise |
| Client.Page.AnnounceStart | static/new_main.js:214-223 | the status log stays in step with the new recording state unless the socket is closed |
| Client.Page.AbandonStart | static/new_main.js:235-242 | a recorder that throws leaves the page not recording with the 'idle' dot |
| Client.Page.SendRecordingStatus | static/new_main.js:218-223 | the envelope goes out only when the socket is open |
| Client.Page.StartTimer | static/new_main.js:51-54 | the display is reset to "00:00" and the start time taken |
| Client.Page.StopTimer | static/new_main.js:64-66 | the timer stops ticking |
| Client.Page.UpdateConnectionStatus | static/new_main.js:69-93 | the dot takes the class and colour of the status |
| Client.Page.StopRecording | static/new_main.js:245-266 | afterwards the page is not recording; `false` is sent exactly when it was recording and the socket is open; the invariant is kept |
| Client.Page.OnDataAvailable | static/new_main.js:144-148 | only non-empty chunks are appended, in arrival order |
| Client.Page.OnRecorderStop | static/new_main.js:150-157 | the dot shows 'processing' and one blob is uploaded, the kept chunks joined in order |
| Client.Page.OnUploadSettled | static/new_main.js:167-200 | the transcript shows the result or the error, and the dot returns to 'idle' either way |
| Client.Page.OnSocketOpen | static/new_main.js:99-103 | the dot shows 'connected'; a start is attempted only for `start=1` when neither recording nor auto-started, so the auto start takes effect at most once |
| Client.Page.OnSocketClose | static/new_main.js:117-121 | the dot shows disconnected and one reconnect is scheduled |
| Client.Page.OnSocketMessage | static/new_main.js:105-115 | a status push sets the dot from its `status`; pong and other frames change nothing |
| Client.Page.Heartbeat | static/new_main.js:427-431 | a ping is sent exactly when the socket is open, and the invariant is kept |
| Client.Page.TimerTick | static/new_main.js:55-61 | while the timer runs, the display shows the time since the start |
| Client.Page.RequestStreamedEnhancement | static/new_main.js:285-327 | a blank transcript changes nothing (no post, buttons untouched); otherwise one post, the display ends as the settled text after the writes of `StreamedWrites`, and the button is re-enabled with its label |
| Client.Page.ClearAndPost | static/new_main.js:291-301 | the enhancement display is cleared and one post of the transcript goes to the kind's endpoint |
| Client.Page.PostStreamed | static/new_main.js:288-326 | the button is restored whatever the reply |
| Client.Page.ShowStreamedReply | static/new_main.js:293-322 | from a cleared display, the writes are the frames of an ok response and then the error text if any |
| Client.Page.ShowStream | static/new_main.js:307-318 | the read loop ends with all chunks joined, after writing each frame in turn |
| Client.Page.RequestAnswer | static/new_main.js:329-361 | a blank transcript changes nothing; otherwise one post, the display becomes the answer or the error without being cleared first, and the button is restored |
| Client.AlternationScenario | static/new_main.js:203-266 | start, heartbeat, stop, start with the socket open: the page sends exactly `true`, ping, `false`, `true`, and the status values heard are `true, false, true` |
| Client.HeardTrueFalseTrue | static/new_main.js:218-223 | those four envelopes carry the status values `true, false, true` |
| Client.StartFailureScenario | static/new_main.js:214-242 | a recorder that throws after `true` was sent leads to exactly `true, true` being sent by the next start |
| Client.ClosedSocketScenario | static/new_main.js:218-256 | a start while the socket is closed is never announced: the page sends exactly one envelope, `false` |
| Client.ClipScenario | static/new_main.js:139-156 | record with chunks `first`, an empty one and `second`, then stop: the uploaded blob is exactly `first + second` |
| Client.RecordTwoChunks | static/new_main.js:144-156 | from an empty buffer while recording, those deliveries and a stop upload exactly `first + second` |
| Client.ClipOfDeliveries | static/new_main.js:144-155 | the `size > 0` filter over those deliveries, joined, is `first + second` |
| StatusChannel.Dispatch | simple_server.py:84-99 | unparseable or non-object frames end the loop; ping gets pong; recording_status gets 'recording' or 'idle' by truthiness; any other object gets nothing |
| StatusChannel.ServeStatusChannel | simple_server.py:67-104 | the greeting, then the replies to the frames up to the first bad one; every frame before that point is handled |
| StatusChannel.RepliesBound | simple_server.py:82-99 | at most one reply per frame |
| StatusChannel.RepliesAppend | simple_server.py:82-99 | before any bad frame, replies to consecutive runs concatenate |
| StatusChannel.RepliesStopAtAbort | simple_server.py:97-99 | nothing after a bad frame is ever answered |
| StatusChannel.PingGetsOnePong | simple_server.py:87-89 | each ping before a bad frame gets exactly one pong, in its place |
| StatusChannel.OtherTypeIsSilent | simple_server.py:87-95 | a frame of another type gets no reply and the loop continues |
| Endpoints.Normalise | simple_server.py:141-149 | text parsing to an object with "text" yields that member; text that does not parse, or has no "text", yields the raw text; a non-text result passes through |
| Endpoints.SliceError | simple_server.py:151 | the log line's slice fails exactly for values that are neither strings nor lists |
| Endpoints.TranscribeReply | simple_server.py:113-160 | any exception becomes a 500 whose detail starts with "Transcription failed: "; success carries the normalised transcription |
| Endpoints.PlainTextPassesThrough | simple_server.py:141-152 | plain text that is not JSON comes back as the transcription unchanged |
| Endpoints.Admit | simple_server.py:168-171 | a missing or empty prompt refuses with a 500 and that endpoint's detail before any model call; otherwise the call carries the text, the prompt and the endpoint's model |
| Endpoints.AskAIReply | simple_server.py:196-202 | ask AI succeeds exactly when the model returns, with the answer under "answer"; a failure is a 500 |
| Protocol.OutboundJson | simple_server.py:75-95 | every server frame is an object with a `type` |
| Protocol.EnvelopesNeverEndLoop | simple_server.py:82-99 | no sequence of page envelopes contains a frame that ends the server's loop |
| Protocol.EnvelopeAnswered | simple_server.py:87-95 | each page envelope gets exactly the reply it is owed |
| Protocol.ClientLogAnswered | simple_server.py:82-99 | over a whole connection, the page's envelopes never end the loop and each is answered once, in order |
| Protocol.StatusFrameSetsDot | static/new_main.js:105-110 | a server status frame sets the page's dot for the status it carries |
| Protocol.PongIsIgnored | static/new_main.js:111-113 | a pong changes nothing on the page |
| Protocol.GreetingShowsConnected | simple_server.py:75-79 | the greeting turns the dot green with the 'connected' class |
| Protocol.RecordingStatusEchoed | simple_server.py:90-95 | the echo of a start makes the dot orange with the 'connecting' class, the echo of a stop green with the 'idle' class |
| Protocol.Status500Text | static/new_main.js:303-305 | a 500 reads "HTTP error! status: 500" |
| Protocol.MissingPromptShown | simple_server.py:169-171 | a missing prompt shows on the page as the button's error prefix and "HTTP error! status: 500" |
| Protocol.FailedTranscriptionShown | static/new_main.js:179-181 | a failed transcription shows the prefix twice and the status text, not the server's detail |
| Protocol.TranscriptionShown | simple_server.py:152 | a text transcription reaches the page's transcript unchanged |

## Left out

- DOM details (scrolling, button classes, the record button's caption), the theme toggle, clipboard copy and its feedback, `alert` and console logging. These are UI only; the displays and buttons the core writes are modelled as fields.
- The browser objects (`WebSocket`, `MediaRecorder`, `getUserMedia`, `fetch`) and the timers (`setInterval`, `setTimeout`). They are parameters, and "reconnect scheduled" and "ping sent" are recorded as intents.
- Async interleaving. Each handler runs to completion, so the double-start race while `initMediaRecorder` awaits the microphone is not modelled. Neither is the race between overlapping enhancement requests on the shared display.
- `TextDecoder` and UTF-8: chunks are already-decoded strings. JSON text parsing and serialisation are also left out: values are modelled after parsing.
- Client.Page.OnSocketOpen: it states the auto start's effect on recording, the log and the auto-start count, but not the display and microphone fields, which are those of `StartRecording`.
- A `transcription` member that is missing (the page shows "undefined") or a list (the page shows its items comma-joined): the page's `UploadBody` carries the transcription as a string, so the server's list case (a `JArr` that `Endpoints.TranscribeReply` returns as success) is not carried to the page. The ask AI `answer` is always a string, because the endpoint's response model declares it one.
- Sending on the status channel never fails on the server side, and a connection ends only by a bad frame or the end of the frames.
- The server's streamed model output, the speech-to-text and language-model calls, the temporary file and its removal, FastAPI routing, Pydantic validation and startup. The enhancement endpoints' "Error processing … improvement/check." handlers cannot be reached, because creating the streaming response does not raise. The launcher `main.py` is not part of this model.
- Endpoints.SliceError: the message for slicing a dict depends on the Python version; the one modelled is "unhashable type: 'slice'".

=== FILE: client.dfy ===
/**
 * The page-wide state of the dictation client (the module-level variables of the page
 * script) and the handlers that change it: starting and stopping a recording, acquiring the
 * microphone, collecting audio chunks, the status-channel callbacks, the heartbeat, the
 * timer tick, the upload result and the three enhancement requests.
 *
 * Everything the browser decides is a parameter: whether the socket is open when a message
 * would be sent, whether the microphone is granted, whether a MediaRecorder can be created
 * and started, the clock, and what each request got back. Each handler runs to completion
 * before the next one starts.
 */
module Client {
  import opened Wrappers
  import opened Strings
  import opened Json
  import opened StatusIndicator
  import opened Enhancement
  import Timer

  type Bytes = seq<bv8>

  /** The envelopes the page sends over the status channel. */
  datatype Envelope = RecordingStatus(recording: bool) | Ping

  /** `JSON.stringify` of an envelope, as the JSON value the server parses back. */
  function EnvelopeJson(e: Envelope): (v: JsonValue)
    ensures v.JObj? && "type" in v.fields && v.fields["type"].JStr?
  {
    match e
    case RecordingStatus(b) => JObj(map["type" := JStr("recording_status"), "recording" := JBool(b)])
    case Ping => JObj(map["type" := JStr("ping")])
  }

  /** The `recording` values of the recording-status envelopes among `sent`, in order; pings are skipped. */
  function StatusValues(sent: seq<Envelope>): seq<bool>
  {
    if sent == [] then []
    else
      var last := sent[|sent| - 1];
      StatusValues(sent[..|sent| - 1]) + (if last.RecordingStatus? then [last.recording] else [])
  }

  /** Sending one more envelope adds its `recording` value, if it has one, at the end. */
  lemma StatusValuesAppend(sent: seq<Envelope>, e: Envelope)
    ensures StatusValues(sent + [e]) == StatusValues(sent) + (if e.RecordingStatus? then [e.recording] else [])
  {
    assert (sent + [e])[..|sent|] == sent;
  }

  /** true, false, true, ...: the log starts with true and no value repeats the one before it. */
  predicate Alternates(log: seq<bool>)
  {
    && (log != [] ==> log[0])
    && forall i :: 0 < i < |log| ==> log[i] != log[i - 1]
  }

  /** The server was told about every start and stop: the log alternates and its last value is the current state. */
  predicate StatusLogAgrees(log: seq<bool>, recording: bool)
  {
    Alternates(log) && (recording <==> log != [] && log[|log| - 1])
  }

  /** Announcing a start when the server last heard "stopped" (or nothing) keeps the log in step. */
  lemma AgreesAfterStart(log: seq<bool>)
    requires StatusLogAgrees(log, false)
    ensures StatusLogAgrees(log + [true], true)
  {
    var l := log + [true];
    forall i | 0 < i < |l| ensures l[i] != l[i - 1] {
      if i == |log| {
        assert log != [] ==> !log[|log| - 1];
      } else {
        assert l[i] == log[i] && l[i - 1] == log[i - 1];
      }
    }
  }

  /** Announcing a stop when the server last heard "started" keeps the log in step. */
  lemma AgreesAfterStop(log: seq<bool>)
    requires StatusLogAgrees(log, true)
    ensures StatusLogAgrees(log + [false], false)
  {
    var l := log + [false];
    forall i | 0 < i < |l| ensures l[i] != l[i - 1] {
      if i < |log| {
        assert l[i] == log[i] && l[i - 1] == log[i - 1];
      }
    }
  }

  datatype Button = Button(disabled: bool, caption: string)

  /** A POST the page issued: the endpoint and the `text` it carried. */
  datatype Post = Post(path: string, text: string)

  /** What the transcription upload got back: `fetch` rejected, or a response. */
  datatype UploadReply =
    | UploadRejected(message: string)
    | UploadResponse(status: int, statusText: string, body: UploadBody)

  /** The body of an ok upload response: its `transcription` member, or the error `response.json()` threw. */
  datatype UploadBody = TranscriptionField(transcription: string) | UnreadableUpload(message: string)

  const TranscriptionFailed := "Transcription failed: "

  /**
   * The transcript shown once the upload settles. A response that is not ok throws an error
   * whose message already starts with "Transcription failed: ", and the handler prefixes it
   * again.
   */
  function TranscriptAfterUpload(reply: UploadReply): (t: string)
    ensures reply.UploadResponse? && IsOk(reply.status) && reply.body.TranscriptionField? ==> t == reply.body.transcription
    ensures !(reply.UploadResponse? && IsOk(reply.status) && reply.body.TranscriptionField?) ==> TranscriptionFailed <= t
    ensures reply.UploadResponse? && !IsOk(reply.status) ==> t == TranscriptionFailed + TranscriptionFailed + reply.statusText
    ensures reply.UploadRejected? ==> t == TranscriptionFailed + reply.message
    ensures reply.UploadResponse? && IsOk(reply.status) && reply.body.UnreadableUpload? ==>
              t == TranscriptionFailed + reply.body.message
  {
    match reply
    case UploadRejected(m) => TranscriptionFailed + m
    case UploadResponse(status, statusText, body) =>
      if !IsOk(status) then TranscriptionFailed + (TranscriptionFailed + statusText)
      else match body
        case TranscriptionField(t) => t
        case UnreadableUpload(m) => TranscriptionFailed + m
  }

  class Page {
    // The script's own state.
    var isRecording: bool
    var isAutoStarted: bool
    var streamInitialized: bool
    var hasRecorder: bool
    var recordedChunks: seq<Bytes>
    var wsConnected: bool
    var startTime: int
    var timerRunning: bool

    // What the page shows.
    var transcript: string
    var enhancedTranscript: string
    var indicator: Indicator
    var timerText: string
    var readabilityButton: Button
    var askAIButton: Button
    var correctnessButton: Button

    // The envelopes sent on the status channel, in order.
    var sent: seq<Envelope>

    // What else the page did to the outside world, and how many times.
    ghost var posts: seq<Post>
    ghost var uploads: seq<Bytes>
    ghost var micRequests: nat
    ghost var micGrants: nat
    ghost var autoStarts: nat
    ghost var reconnectsScheduled: nat
    // Every value written into the enhancement display, in order.
    ghost var displayLog: seq<string>
    // Set once a recording-status message was lost (socket not open) or `true` was sent
    // for a start that then failed; from then on the server's view may disagree.
    ghost var desynced: bool

    ghost predicate Valid()
      reads this`isRecording, this`isAutoStarted, this`streamInitialized, this`hasRecorder, this`timerRunning,
        this`micRequests, this`micGrants, this`autoStarts, this`sent,
        this`desynced
    {
      && (isRecording ==> streamInitialized && hasRecorder && isAutoStarted)
      && timerRunning == isRecording
      && micGrants == (if streamInitialized then 1 else 0)
      && micGrants <= micRequests
      && autoStarts <= 1
      && (autoStarts == 1 ==> isAutoStarted)
      && (!desynced ==> StatusLogAgrees(StatusValues(sent), isRecording))
    }

    /** The button of each enhancement kind. */
    function ButtonOf(k: Kind): Button
      reads this`readabilityButton, this`askAIButton, this`correctnessButton
    {
      match k
      case Readability => readabilityButton
      case AskAI => askAIButton
      case Correctness => correctnessButton
    }

    /** Sets one button and leaves the other two as they are. */
    method SetButton(k: Kind, b: Button)
      modifies this`readabilityButton, this`askAIButton, this`correctnessButton
      ensures ButtonOf(k) == b
      ensures forall j :: j != k ==> ButtonOf(j) == old(ButtonOf(j))
    {
      match k
      case Readability => readabilityButton := b;
      case AskAI => askAIButton := b;
      case Correctness => correctnessButton := b;
    }

    /** A start gets past `initMediaRecorder`: a microphone is (or becomes) available and a recorder is created. */
    ghost predicate Ready(micGranted: bool, recorderCreated: bool)
      reads this`streamInitialized
    {
      (streamInitialized || micGranted) && recorderCreated
    }

    /**
     * The page as loaded, before the status channel first opens: the script's globals take
     * their initial values. The dot, the timer text and the button labels are those of the
     * page's markup, which is not part of this model; they are assumed to be the
     * disconnected look, "00:00" and each button's own label.
     */
    constructor ()
      ensures Valid()
      ensures !isRecording && !isAutoStarted && !streamInitialized && !hasRecorder && !wsConnected
      ensures recordedChunks == [] && transcript == "" && enhancedTranscript == ""
      ensures indicator == Disconnected && timerText == Timer.ResetText
      ensures forall k :: ButtonOf(k) == Button(false, ButtonLabel(k))
      ensures sent == [] && posts == [] && uploads == [] && displayLog == [] && !desynced
      ensures micRequests == 0 && micGrants == 0 && autoStarts == 0 && reconnectsScheduled == 0
    {
      isRecording, isAutoStarted, streamInitialized, hasRecorder := false, false, false, false;
      recordedChunks, wsConnected, startTime, timerRunning := [], false, 0, false;
      transcript, enhancedTranscript := "", "";
      indicator, timerText := Disconnected, Timer.ResetText;
      readabilityButton := Button(false, ButtonLabel(Readability));
      askAIButton := Button(false, ButtonLabel(AskAI));
      correctnessButton := Button(false, ButtonLabel(Correctness));
      sent, posts, uploads, displayLog := [], [], [], [];
      micRequests, micGrants, autoStarts, reconnectsScheduled, desynced := 0, 0, 0, 0, false;
    }

    /**
     * `initMediaRecorder`: asks for the microphone only while none has been granted, then
     * empties the chunk buffer and creates a recorder. False when either step fails; a
     * refused microphone leaves the buffer as it was.
     */
    method InitMediaRecorder(micGranted: bool, recorderCreated: bool) returns (ok: bool)
      requires Valid()
      modifies this`streamInitialized, this`hasRecorder, this`recordedChunks, this`micRequests, this`micGrants
      ensures Valid()
      ensures micRequests == old(micRequests) + (if old(streamInitialized) then 0 else 1)
      ensures streamInitialized == (old(streamInitialized) || micGranted)
      ensures ok == old(Ready(micGranted, recorderCreated))
      ensures recordedChunks == (if streamInitialized then [] else old(recordedChunks))
      ensures hasRecorder == (old(hasRecorder) || ok)
    {
      if !streamInitialized {
        micRequests := micRequests + 1;
        if !micGranted {
          return false;
        }
        streamInitialized := true;
        micGrants := micGrants + 1;
      }
      recordedChunks := [];
      if !recorderCreated {
        return false;
      }
      hasRecorder := true;
      return true;
    }

    /**
     * `startRecording`: nothing while already recording. Otherwise both displays are
     * cleared and the recorder initialised; if that fails the start ends there. If it
     * succeeds the page is recording and auto-started, tells the server `true` when the
     * socket is open, starts the recorder, resets the timer and shows 'recording'. A
     * recorder that fails to start leaves the page not recording and showing 'idle'.
     */
    method StartRecording(socketOpen: bool, micGranted: bool, recorderCreated: bool, recorderStarts: bool, now: int)
      requires Valid()
      modifies this`isRecording, this`isAutoStarted, this`streamInitialized, this`hasRecorder, this`recordedChunks,
        this`transcript, this`enhancedTranscript, this`displayLog, this`indicator, this`timerText,
        this`timerRunning, this`startTime, this`sent, this`micRequests, this`micGrants, this`desynced
      ensures Valid()
      ensures old(isRecording) ==> unchanged(this)
      ensures !old(isRecording) ==> transcript == "" && enhancedTranscript == "" && displayLog == old(displayLog) + [""]
      ensures !old(isRecording) ==> micRequests == old(micRequests) + (if old(streamInitialized) then 0 else 1)
      ensures streamInitialized == (old(streamInitialized) || (!old(isRecording) && micGranted))
      ensures !old(isRecording) && streamInitialized ==> recordedChunks == []
      ensures !streamInitialized ==> recordedChunks == old(recordedChunks)
      ensures hasRecorder == (old(hasRecorder) || (!old(isRecording) && old(Ready(micGranted, recorderCreated))))
      ensures isRecording == (old(isRecording) || (old(Ready(micGranted, recorderCreated)) && recorderStarts))
      ensures isAutoStarted == (old(isAutoStarted) || (!old(isRecording) && old(Ready(micGranted, recorderCreated))))
      ensures sent == old(sent) + (if !old(isRecording) && old(Ready(micGranted, recorderCreated)) && socketOpen
                                   then [RecordingStatus(true)] else [])
      ensures !old(isRecording) && old(Ready(micGranted, recorderCreated)) && recorderStarts ==>
                timerText == Timer.ResetText && startTime == now && indicator == IndicatorFor("recording")
      ensures !old(isRecording) && old(Ready(micGranted, recorderCreated)) && !recorderStarts ==>
                indicator == IndicatorFor("idle") && timerText == old(timerText) && startTime == old(startTime)
      ensures !old(isRecording) && !old(Ready(micGranted, recorderCreated)) ==>
                indicator == old(indicator) && timerText == old(timerText) && startTime == old(startTime)
      ensures desynced == (old(desynced) || (!old(isRecording) && old(Ready(micGranted, recorderCreated)) && !(socketOpen && recorderStarts)))
    {
      if isRecording {
        return;
      }
      ClearDisplays();
      InitAndBegin(socketOpen, micGranted, recorderCreated, recorderStarts, now);
    }

    /** A start from idle once the displays are cleared: the recorder is initialised and, if that succeeds, the recording begins. */
    method InitAndBegin(socketOpen: bool, micGranted: bool, recorderCreated: bool, recorderStarts: bool, now: int)
      requires Valid() && !isRecording
      modifies this`isRecording, this`isAutoStarted, this`streamInitialized, this`hasRecorder, this`recordedChunks,
        this`indicator, this`timerText, this`timerRunning, this`startTime, this`sent, this`micRequests,
        this`micGrants, this`desynced
      ensures Valid()
      ensures micRequests == old(micRequests) + (if old(streamInitialized) then 0 else 1)
      ensures streamInitialized == (old(streamInitialized) || micGranted)
      ensures streamInitialized ==> recordedChunks == []
      ensures !streamInitialized ==> recordedChunks == old(recordedChunks)
      ensures hasRecorder == (old(hasRecorder) || old(Ready(micGranted, recorderCreated)))
      ensures isRecording == (old(Ready(micGranted, recorderCreated)) && recorderStarts)
      ensures isAutoStarted == (old(isAutoStarted) || old(Ready(micGranted, recorderCreated)))
      ensures sent == old(sent) + (if old(Ready(micGranted, recorderCreated)) && socketOpen
                                   then [RecordingStatus(true)] else [])
      ensures old(Ready(micGranted, recorderCreated)) && recorderStarts ==>
                timerText == Timer.ResetText && startTime == now && indicator == IndicatorFor("recording")
      ensures old(Ready(micGranted, recorderCreated)) && !recorderStarts ==>
                indicator == IndicatorFor("idle") && timerText == old(timerText) && startTime == old(startTime)
      ensures !old(Ready(micGranted, recorderCreated)) ==>
                indicator == old(indicator) && timerText == old(timerText) && startTime == old(startTime)
      ensures desynced == (old(desynced) || (old(Ready(micGranted, recorderCreated)) && !(socketOpen && recorderStarts)))
    {
      var ok := InitMediaRecorder(micGranted, recorderCreated);
      if ok {
        BeginRecording(socketOpen, recorderStarts, now);
      }
    }

    /** The first step of a start: both displays are emptied. */
    method ClearDisplays()
      modifies this`transcript, this`enhancedTranscript, this`displayLog
      ensures transcript == "" && enhancedTranscript == "" && displayLog == old(displayLog) + [""]
    {
      transcript, enhancedTranscript := "", "";
      displayLog := displayLog + [""];
    }

    /**
     * The rest of a start once the recorder exists: the page is recording, tells the server,
     * and starts the recorder; if that throws, the catch block leaves it not recording and
     * showing 'idle'.
     */
    method BeginRecording(socketOpen: bool, recorderStarts: bool, now: int)
      requires Valid() && !isRecording && streamInitialized && hasRecorder
      modifies this`isRecording, this`isAutoStarted, this`sent, this`desynced,
        this`indicator, this`timerText, this`startTime, this`timerRunning
      ensures Valid()
      ensures isRecording == recorderStarts && isAutoStarted
      ensures sent == old(sent) + (if socketOpen then [RecordingStatus(true)] else [])
      ensures desynced == (old(desynced) || !(socketOpen && recorderStarts))
      ensures recorderStarts ==>
                timerText == Timer.ResetText && startTime == now && indicator == IndicatorFor("recording")
      ensures !recorderStarts ==>
                indicator == IndicatorFor("idle") && timerText == old(timerText) && startTime == old(startTime)
    {
      AnnounceStart(socketOpen);
      if !recorderStarts {
        AbandonStart();
        return;
      }
      StartTimer(now);
      UpdateConnectionStatus("recording");
    }

    /** A start is under way: the page is recording and auto-started, and tells the server `true`. */
    method AnnounceStart(socketOpen: bool)
      requires Valid() && !isRecording
      modifies this`isRecording, this`isAutoStarted, this`sent, this`desynced
      ensures isRecording && isAutoStarted
      ensures sent == old(sent) + (if socketOpen then [RecordingStatus(true)] else [])
      ensures desynced == (old(desynced) || !socketOpen)
      ensures !desynced ==> StatusLogAgrees(StatusValues(sent), true)
    {
      if !desynced && socketOpen {
        StatusValuesAppend(sent, RecordingStatus(true));
        AgreesAfterStart(StatusValues(sent));
      }
      isRecording, isAutoStarted := true, true;
      SendRecordingStatus(true, socketOpen);
    }

    /** The catch block of a start whose recorder threw: not recording, showing 'idle', and the server told otherwise. */
    method AbandonStart()
      modifies this`isRecording, this`desynced, this`indicator
      ensures !isRecording && desynced && indicator == IndicatorFor("idle")
    {
      isRecording, desynced := false, true;
      UpdateConnectionStatus("idle");
    }

    /**
     * The recording-status envelope the page sends on a start or a stop: it goes out only
     * when the socket is open, and otherwise the server is left out of step.
     */
    method SendRecordingStatus(recording: bool, socketOpen: bool)
      modifies this`sent, this`desynced
      ensures sent == old(sent) + (if socketOpen then [RecordingStatus(recording)] else [])
      ensures desynced == (old(desynced) || !socketOpen)
    {
      if socketOpen {
        sent := sent + [RecordingStatus(recording)];
      } else {
        desynced := true;
      }
    }

    /** `startTimer`: the display is reset and the start time taken from the clock. */
    method StartTimer(now: int)
      modifies this`timerText, this`startTime, this`timerRunning
      ensures timerText == Timer.ResetText && startTime == now && timerRunning
    {
      timerText, startTime, timerRunning := Timer.ResetText, now, true;
    }

    /** `stopTimer`: the interval is cleared; the display keeps its last text. */
    method StopTimer()
      modifies this`timerRunning
      ensures !timerRunning
    {
      timerRunning := false;
    }

    /** `updateConnectionStatus`: the dot takes the class and colour of the status. */
    method UpdateConnectionStatus(status: string)
      modifies this`indicator
      ensures indicator == IndicatorFor(status)
    {
      indicator := IndicatorFor(status);
    }

    /**
     * `stopRecording`: nothing unless recording with a recorder. Otherwise the page stops
     * recording, tells the server `false` when the socket is open, stops the recorder (its
     * stop event comes later, see OnRecorderStop) and stops the timer.
     */
    method StopRecording(socketOpen: bool)
      requires Valid()
      modifies this`isRecording, this`sent, this`timerRunning, this`desynced
      ensures Valid()
      ensures !isRecording && !timerRunning
      ensures sent == old(sent) + (if old(isRecording) && socketOpen then [RecordingStatus(false)] else [])
      ensures desynced == (old(desynced) || (old(isRecording) && !socketOpen))
    {
      if !isRecording || !hasRecorder {
        return;
      }
      if !desynced && socketOpen {
        StatusValuesAppend(sent, RecordingStatus(false));
        AgreesAfterStop(StatusValues(sent));
      }
      isRecording := false;
      SendRecordingStatus(false, socketOpen);
      StopTimer();
    }

    /**
     * The recorder's `dataavailable` event: a chunk is kept only if it is not empty. The
     * buffer grows by NonEmpty of each delivery, so by NonEmptyAppend it holds NonEmpty of
     * everything delivered since it was cleared, and by JoinNonEmpty the blob joined from it
     * is every delivered chunk joined; ClipOfDeliveries and ClipScenario carry this through
     * one recording.
     */
    method OnDataAvailable(chunk: Bytes)
      modifies this`recordedChunks
      ensures recordedChunks == old(recordedChunks) + NonEmpty([chunk])
    {
      if |chunk| > 0 {
        recordedChunks := recordedChunks + [chunk];
      }
    }

    /** The recorder's `stop` event: shows 'processing' and uploads one blob, the kept chunks joined in order. */
    method OnRecorderStop() returns (blob: Bytes)
      modifies this`indicator, this`uploads
      ensures indicator == IndicatorFor("processing")
      ensures blob == Join(recordedChunks)
      ensures uploads == old(uploads) + [blob]
    {
      indicator := IndicatorFor("processing");
      blob := Join(recordedChunks);
      uploads := uploads + [blob];
    }

    /** `uploadAndTranscribe` once its request settles: the transcript or an error, and 'idle' either way. */
    method OnUploadSettled(reply: UploadReply)
      modifies this`transcript, this`indicator
      ensures transcript == TranscriptAfterUpload(reply)
      ensures indicator == IndicatorFor("idle")
    {
      transcript := TranscriptAfterUpload(reply);
      indicator := IndicatorFor("idle");
    }

    /**
     * `ws.onopen`: shows 'connected', then starts a recording when the page was opened with
     * `start=1`, is not recording and has never got past the start of a recording before.
     */
    method OnSocketOpen(autoStart: bool, micGranted: bool, recorderCreated: bool, recorderStarts: bool, now: int)
      requires Valid()
      modifies this`isRecording, this`isAutoStarted, this`streamInitialized, this`hasRecorder, this`recordedChunks,
        this`transcript, this`enhancedTranscript, this`displayLog, this`indicator, this`timerText,
        this`timerRunning, this`startTime, this`sent, this`micRequests, this`micGrants, this`desynced,
        this`wsConnected, this`autoStarts
      ensures Valid()
      ensures wsConnected
      ensures old(isAutoStarted) || old(isRecording) || !autoStart ==>
                isRecording == old(isRecording) && sent == old(sent)
                && autoStarts == old(autoStarts)
                && indicator == IndicatorFor("connected")
      ensures !old(isAutoStarted) && !old(isRecording) && autoStart ==>
                && isRecording == (old(Ready(micGranted, recorderCreated)) && recorderStarts)
                && sent == old(sent) + (if old(Ready(micGranted, recorderCreated)) then [RecordingStatus(true)] else [])
                && autoStarts == old(autoStarts) + (if old(Ready(micGranted, recorderCreated)) then 1 else 0)
    {
      wsConnected := true;
      indicator := IndicatorFor("connected");
      if autoStart && !isRecording && !isAutoStarted {
        StartRecording(true, micGranted, recorderCreated, recorderStarts, now);
        if isAutoStarted {
          autoStarts := autoStarts + 1;
        }
      }
    }

    /** `ws.onclose`: shows the disconnected state and schedules a reconnect. */
    method OnSocketClose()
      modifies this`wsConnected, this`indicator, this`reconnectsScheduled
      ensures !wsConnected && indicator == Disconnected
      ensures reconnectsScheduled == old(reconnectsScheduled) + 1
    {
      wsConnected := false;
      indicator := IndicatorFor("disconnected");
      reconnectsScheduled := reconnectsScheduled + 1;
    }

    /** `ws.onmessage`: a `status` push sets the dot; `pong`, other types and unparseable frames change nothing. */
    method OnSocketMessage(msg: Inbound)
      modifies this`indicator
      ensures HasType(msg, "status") ==> indicator == IndicatorForField(Field(msg.value, "status"))
      ensures !HasType(msg, "status") ==> indicator == old(indicator)
    {
      if HasType(msg, "status") {
        indicator := IndicatorForField(Field(msg.value, "status"));
      }
    }

    /** The 30-second heartbeat: a ping when the socket is open, nothing otherwise. */
    method Heartbeat(socketOpen: bool)
      requires Valid()
      modifies this`sent
      ensures Valid()
      ensures sent == old(sent) + (if socketOpen then [Ping] else [])
    {
      if socketOpen {
        StatusValuesAppend(sent, Ping);
        sent := sent + [Ping];
      }
    }

    /** The once-a-second timer callback, which runs only between a start and the next stop. */
    method TimerTick(now: int)
      modifies this`timerText
      ensures timerText == if timerRunning then Timer.FormatElapsed(now - startTime) else old(timerText)
    {
      if timerRunning {
        timerText := Timer.FormatElapsed(now - startTime);
      }
    }

    /**
     * The readability and correctness buttons. Nothing at all happens for a blank
     * transcript. Otherwise the transcript is posted, the display is cleared and then shows
     * the text received so far after each chunk, an error replaces it if the request fails,
     * and the button ends enabled with its own label.
     */
    method RequestStreamedEnhancement(k: Kind, reply: StreamReply)
      requires IsStreamed(k)
      modifies this`readabilityButton, this`askAIButton, this`correctnessButton, this`enhancedTranscript, this`displayLog, this`posts
      ensures IsBlank(transcript) ==>
                (forall j :: ButtonOf(j) == old(ButtonOf(j))) && enhancedTranscript == old(enhancedTranscript)
                && displayLog == old(displayLog) && posts == old(posts)
      ensures !IsBlank(transcript) ==>
                && posts == old(posts) + [Post(Path(k), transcript)]
                && enhancedTranscript == StreamedText(k, reply)
                && displayLog == old(displayLog) + StreamedWrites(k, reply)
                && ButtonOf(k) == Button(false, ButtonLabel(k))
                && (forall j :: j != k ==> ButtonOf(j) == old(ButtonOf(j)))
    {
      if IsBlank(transcript) {
        return;
      }
      PostStreamed(k, reply);
    }

    /** The `try`/`finally` of a streamed request once the transcript is known not to be blank. */
    method PostStreamed(k: Kind, reply: StreamReply)
      modifies this`readabilityButton, this`askAIButton, this`correctnessButton, this`enhancedTranscript, this`displayLog, this`posts
      ensures posts == old(posts) + [Post(Path(k), transcript)]
      ensures enhancedTranscript == StreamedText(k, reply)
      ensures displayLog == old(displayLog) + StreamedWrites(k, reply)
      ensures ButtonOf(k) == Button(false, ButtonLabel(k))
      ensures forall j :: j != k ==> ButtonOf(j) == old(ButtonOf(j))
    {
      SetButton(k, Button(true, ProcessingLabel));
      ClearAndPost(k);
      ShowStreamedReply(k, reply);
      SetButton(k, Button(false, ButtonLabel(k)));
      assert displayLog == old(displayLog) + ([""] + SettleWrites(k, reply));
    }

    /** Before the request: the display is cleared and the transcript posted to the kind's endpoint. */
    method ClearAndPost(k: Kind)
      modifies this`enhancedTranscript, this`displayLog, this`posts
      ensures enhancedTranscript == "" && displayLog == old(displayLog) + [""]
      ensures posts == old(posts) + [Post(Path(k), transcript)]
    {
      enhancedTranscript := "";
      displayLog := displayLog + [""];
      posts := posts + [Post(Path(k), transcript)];
    }

    /**
     * The body of the streamed request's `try`/`catch` once the display is cleared: every
     * chunk read is appended and shown, and a rejected request, a status that is not ok or
     * a failed read shows the kind's error message instead.
     */
    method ShowStreamedReply(k: Kind, reply: StreamReply)
      requires enhancedTranscript == ""
      modifies this`enhancedTranscript, this`displayLog
      ensures enhancedTranscript == StreamedText(k, reply)
      ensures displayLog == old(displayLog) + SettleWrites(k, reply)
    {
      ghost var before := displayLog;
      match reply {
        case StreamRejected(m) =>
          enhancedTranscript := ErrorPrefix(k) + m;
          displayLog := displayLog + [enhancedTranscript];
        case StreamResponse(status, chunks, readError) =>
          if !IsOk(status) {
            enhancedTranscript := ErrorPrefix(k) + HttpErrorMessage(status);
            displayLog := displayLog + [enhancedTranscript];
          } else {
            ShowStream(chunks);
            if readError.Some? {
              enhancedTranscript := ErrorPrefix(k) + readError.value;
              displayLog := displayLog + [enhancedTranscript];
            }
          }
      }
    }

    /** The read loop: after each chunk the display shows everything received so far. */
    method ShowStream(chunks: seq<string>)
      requires enhancedTranscript == ""
      modifies this`enhancedTranscript, this`displayLog
      ensures enhancedTranscript == Join(chunks)
      ensures displayLog == old(displayLog) + Frames(chunks)
    {
      var result := "";
      var i := 0;
      while i < |chunks|
        invariant 0 <= i <= |chunks|
        invariant result == Join(chunks[..i])
        invariant enhancedTranscript == result
        invariant displayLog == old(displayLog) + Frames(chunks[..i])
      {
        assert chunks[..i + 1][..i] == chunks[..i];
        result := result + chunks[i];
        enhancedTranscript := result;
        displayLog := displayLog + [result];
        i := i + 1;
      }
      assert chunks[..i] == chunks;
    }

    /**
     * The ask AI button: nothing for a blank transcript; otherwise the transcript is posted
     * and the display is replaced by the answer or by the error, without being cleared
     * first, and the button ends enabled with its own label.
     */
    method RequestAnswer(reply: AnswerReply)
      modifies this`readabilityButton, this`askAIButton, this`correctnessButton, this`enhancedTranscript, this`displayLog, this`posts
      ensures IsBlank(transcript) ==>
                (forall j :: ButtonOf(j) == old(ButtonOf(j))) && enhancedTranscript == old(enhancedTranscript)
                && displayLog == old(displayLog) && posts == old(posts)
      ensures !IsBlank(transcript) ==>
                && posts == old(posts) + [Post(Path(AskAI), transcript)]
                && enhancedTranscript == AnswerText(reply)
                && displayLog == old(displayLog) + [AnswerText(reply)]
                && ButtonOf(AskAI) == Button(false, ButtonLabel(AskAI))
                && (forall j :: j != AskAI ==> ButtonOf(j) == old(ButtonOf(j)))
    {
      if IsBlank(transcript) {
        return;
      }
      SetButton(AskAI, Button(true, ProcessingLabel));
      posts := posts + [Post(Path(AskAI), transcript)];
      enhancedTranscript := AnswerText(reply);
      displayLog := displayLog + [enhancedTranscript];
      SetButton(AskAI, Button(false, ButtonLabel(AskAI)));
    }
  }

  /**
   * Start, stop, start with the socket open throughout, and a heartbeat while recording: the
   * server hears true, ping, false, true.
   */
  method AlternationScenario() returns (sent: seq<Envelope>, recording: bool)
    ensures sent == [RecordingStatus(true), Ping, RecordingStatus(false), RecordingStatus(true)]
    ensures StatusValues(sent) == [true, false, true] && recording
  {
    var p := new Page();
    p.StartRecording(true, true, true, true, 0);
    p.Heartbeat(true);
    p.StopRecording(true);
    p.StartRecording(true, true, true, true, 5000);
    sent, recording := p.sent, p.isRecording;
    HeardTrueFalseTrue();
  }

  /** The server reads true, false, true out of the envelopes true, ping, false, true. */
  lemma HeardTrueFalseTrue()
    ensures StatusValues([RecordingStatus(true), Ping, RecordingStatus(false), RecordingStatus(true)]) == [true, false, true]
  {
    var e1, e2, e3 := [RecordingStatus(true)], [RecordingStatus(true), Ping], [RecordingStatus(true), Ping, RecordingStatus(false)];
    StatusValuesAppend([], RecordingStatus(true));
    assert [] + [RecordingStatus(true)] == e1;
    StatusValuesAppend(e1, Ping);
    assert e1 + [Ping] == e2;
    StatusValuesAppend(e2, RecordingStatus(false));
    assert e2 + [RecordingStatus(false)] == e3;
    StatusValuesAppend(e3, RecordingStatus(true));
    assert e3 + [RecordingStatus(true)] == [RecordingStatus(true), Ping, RecordingStatus(false), RecordingStatus(true)];
  }

  /**
   * The recorder fails to start after `true` was sent; the page is not recording, so the
   * next start sends `true` again and the server hears true, true.
   */
  method StartFailureScenario() returns (sent: seq<Envelope>, recording: bool)
    ensures sent == [RecordingStatus(true), RecordingStatus(true)] && recording
  {
    var p := new Page();
    p.StartRecording(true, true, true, false, 0);
    p.StartRecording(true, true, true, true, 1000);
    sent, recording := p.sent, p.isRecording;
  }

  /** A start while the socket is closed is never announced: the server hears only the stop. */
  method ClosedSocketScenario() returns (sent: seq<Envelope>, recording: bool)
    ensures sent == [RecordingStatus(false)] && !recording
  {
    var p := new Page();
    p.StartRecording(false, true, true, true, 0);
    p.StopRecording(true);
    sent, recording := p.sent, p.isRecording;
  }

  /**
   * One recording from a fresh page: two chunks with an empty delivery between them, then
   * the stop. The uploaded blob is the two chunks joined, in order.
   */
  method ClipScenario(first: Bytes, second: Bytes) returns (blob: Bytes)
    ensures blob == first + second
  {
    var p := new Page();
    p.StartRecording(true, true, true, true, 0);
    blob := RecordTwoChunks(p, first, second);
  }

  /** The deliveries and the stop of ClipScenario, on a page that has just started recording. */
  method RecordTwoChunks(p: Page, first: Bytes, second: Bytes) returns (blob: Bytes)
    requires p.Valid() && p.isRecording && p.recordedChunks == []
    modifies p
    ensures blob == first + second
  {
    p.OnDataAvailable(first);
    p.OnDataAvailable([]);
    p.OnDataAvailable(second);
    p.StopRecording(true);
    blob := p.OnRecorderStop();
    ClipOfDeliveries(first, second);
  }

  /** The chunks kept from the deliveries `first`, empty, `second` join to `first + second`. */
  lemma ClipOfDeliveries(first: Bytes, second: Bytes)
    ensures Join([] + NonEmpty([first]) + NonEmpty([[]]) + NonEmpty([second])) == first + second
  {
    var delivered := [first, [], second];
    NonEmptyAppend([first], [[]]);
    NonEmptyAppend([first, []], [second]);
    assert [first] + [[]] == [first, []] && [first, []] + [second] == delivered;
    assert [] + NonEmpty([first]) + NonEmpty([[]]) + NonEmpty([second]) == NonEmpty(delivered);
    JoinNonEmpty(delivered);
    assert delivered[..2][..1] == [first] && delivered[..2] == [first, []];
    assert Join([first]) == first by {
      assert [first][..0] == [];
    }
  }
}

=== FILE: endpoints.dfy ===
/**
 * The HTTP endpoints of the server, with the speech-to-text and language-model services
 * abstracted: the transcription endpoint's handling of what the speech-to-text call
 * returned, and the prompt checks that guard the three enhancement endpoints.
 *
 * An endpoint's result is either a JSON body or an `HTTPException`, which the framework
 * turns into a response with that status code and a `detail` member.
 */
module Endpoints {
  import opened Wrappers
  import opened Json
  import Enhancement

  datatype HttpReply = Ok(body: JsonValue) | HttpError(status: int, detail: string)

  /**
   * What the speech-to-text call did: it raised (reading the upload or writing the
   * temporary file failing is folded in here), or returned text (with what `json.loads`
   * makes of that text: None when it does not parse), or returned some other object.
   */
  datatype WhisperCall =
    | WhisperRaised(message: string)
    | WhisperText(raw: string, parsed: Option<JsonValue>)
    | WhisperObject(value: JsonValue)

  /**
   * The transcription taken from a successful call. Text that parses to an object yields
   * its "text" member, or the raw text when there is none; text that does not parse, or
   * parses to something without `.get`, falls back to the raw text; any other result is
   * used as it is.
   */
  function Normalise(call: WhisperCall): (t: JsonValue)
    requires !call.WhisperRaised?
    ensures call.WhisperObject? ==> t == call.value
    ensures call.WhisperText? && call.parsed.Some? && Field(call.parsed.value, "text").Some? ==>
              t == call.parsed.value.fields["text"]
    ensures call.WhisperText? && (call.parsed.None? || Field(call.parsed.value, "text").None?) ==> t == JStr(call.raw)
  {
    match call
    case WhisperText(raw, parsed) =>
      if parsed.Some? && parsed.value.JObj? && "text" in parsed.value.fields then parsed.value.fields["text"]
      else JStr(raw)
    case WhisperObject(v) => v
  }

  /**
   * `transcription[:100]` in the log line raises for a value that cannot be sliced; the
   * result is the message of that exception. Strings and lists slice without error.
   */
  function SliceError(v: JsonValue): (e: Option<string>)
    ensures e.None? <==> v.JStr? || v.JArr?
  {
    match v
    case JStr(_) => None
    case JArr(_) => None
    case JNull => Some("'NoneType' object is not subscriptable")
    case JBool(_) => Some("'bool' object is not subscriptable")
    case JInt(_) => Some("'int' object is not subscriptable")
    case JFloat(_) => Some("'float' object is not subscriptable")
    case JObj(_) => Some("unhashable type: 'slice'")
  }

  const TranscriptionFailed := "Transcription failed: "

  /**
   * `transcribe_audio`: the normalised transcription under "transcription", or, for any
   * exception on the way, a 500 whose detail is the exception's message after a fixed prefix.
   */
  function TranscribeReply(call: WhisperCall): (r: HttpReply)
    ensures r.HttpError? ==>
              r.status == 500 && |r.detail| >= |TranscriptionFailed| && r.detail[..|TranscriptionFailed|] == TranscriptionFailed
    ensures call.WhisperRaised? ==> r == HttpError(500, TranscriptionFailed + call.message)
    ensures !call.WhisperRaised? ==> (r.Ok? <==> Normalise(call).JStr? || Normalise(call).JArr?)
    ensures r.Ok? ==> r.body == JObj(map["transcription" := Normalise(call)])
  {
    match call
    case WhisperRaised(m) => HttpError(500, TranscriptionFailed + m)
    case _ =>
      var t := Normalise(call);
      match SliceError(t)
      case Some(m) => HttpError(500, TranscriptionFailed + m)
      case None => Ok(JObj(map["transcription" := t]))
  }

  /** Plain text that is not JSON comes back unchanged as the transcription. */
  lemma PlainTextPassesThrough(raw: string)
    ensures TranscribeReply(WhisperText(raw, None)) == Ok(JObj(map["transcription" := JStr(raw)]))
  {
  }

  /** The prompt library: prompt texts by key. */
  type Prompts = map<string, string>

  /** The prompt key each enhancement endpoint looks up. */
  function PromptKey(k: Enhancement.Kind): string
  {
    match k
    case Readability => "paraphrase"
    case AskAI => "chat"
    case Correctness => "correctness-check"
  }

  /** The detail of the 500 raised when the prompt is missing. */
  function MissingPromptDetail(k: Enhancement.Kind): string
  {
    match k
    case Readability => "Readability prompt not found."
    case AskAI => "Chat prompt not found."
    case Correctness => "Correctness prompt not found."
  }

  /** The model each endpoint asks for. */
  function ModelFor(k: Enhancement.Kind): string
  {
    match k
    case Readability => "gpt-4o"
    case AskAI => "o1-mini"
    case Correctness => "gpt-4o"
  }

  /** A request to the language model: the user's text, the prompt and the model name. */
  datatype LlmCall = LlmCall(text: string, prompt: string, model: string)

  /**
   * The outcome of an enhancement request before any model output exists: either an error
   * reply and no call, or the call the endpoint makes.
   */
  datatype Admission = Refused(reply: HttpReply) | Admitted(call: LlmCall)

  /**
   * The prompt check at the top of each enhancement endpoint: `PROMPTS.get(key)` that is
   * missing or empty (falsy) ends the request with a 500 before the model is called.
   */
  function Admit(k: Enhancement.Kind, prompts: Prompts, text: string): (a: Admission)
    ensures a.Refused? <==> PromptKey(k) !in prompts || prompts[PromptKey(k)] == ""
    ensures a.Refused? ==> a.reply == HttpError(500, MissingPromptDetail(k))
    ensures a.Admitted? ==> a.call == LlmCall(text, prompts[PromptKey(k)], ModelFor(k))
  {
    var key := PromptKey(k);
    if key !in prompts || prompts[key] == "" then Refused(HttpError(500, MissingPromptDetail(k)))
    else Admitted(LlmCall(text, prompts[key], ModelFor(k)))
  }

  /**
   * `ask_ai` once admitted: the model's answer under "answer", or a 500 when the call
   * raised (None stands for the raise).
   */
  function AskAIReply(result: Option<string>): (r: HttpReply)
    ensures r.Ok? <==> result.Some?
    ensures r.Ok? ==> r.body == JObj(map["answer" := JStr(result.value)])
    ensures r.HttpError? ==> r.status == 500
  {
    match result
    case Some(answer) => Ok(JObj(map["answer" := JStr(answer)]))
    case None => HttpError(500, "Error processing AI question.")
  }
}

=== FILE: enhancement.dfy ===
/**
 * The three enhancement buttons of the client page (readability, ask AI, correctness):
 * what each request shows in the enhancement display once it settles. Readability and
 * correctness read a streamed body and show the text received so far after every chunk;
 * ask AI shows one JSON answer. Any failure replaces the display with a fixed prefix and
 * the error message.
 */
module Enhancement {
  import opened Wrappers
  import opened Strings

  datatype Kind = Readability | AskAI | Correctness

  /** The endpoint each button posts the transcript to. */
  function Path(k: Kind): string
  {
    match k
    case Readability => "/api/v1/readability"
    case AskAI => "/api/v1/ask_ai"
    case Correctness => "/api/v1/correctness"
  }

  /** The label each button is given back when its request settles. */
  function ButtonLabel(k: Kind): string
  {
    match k
    case Readability => "Readability"
    case AskAI => "Ask AI"
    case Correctness => "Correctness"
  }

  /** The label a button carries while its request is in flight. */
  const ProcessingLabel := "Processing..."

  function ErrorPrefix(k: Kind): string
  {
    match k
    case Readability => "Error processing readability: "
    case AskAI => "Error processing AI question: "
    case Correctness => "Error processing correctness check: "
  }

  /** Readability and correctness stream their reply; ask AI does not. */
  predicate IsStreamed(k: Kind) { k != AskAI }

  /** `response.ok`. */
  predicate IsOk(status: int) { 200 <= status <= 299 }

  /** The message thrown for a response that is not ok. */
  function HttpErrorMessage(status: int): string
  {
    "HTTP error! status: " + IntToString(status)
  }

  /**
   * What a streamed request got back: `fetch` rejected, or a response with its status, the
   * text chunks the reader delivered (already decoded) and, when the reader then failed,
   * the message it failed with.
   */
  datatype StreamReply =
    | StreamRejected(message: string)
    | StreamResponse(status: int, chunks: seq<string>, readError: Option<string>)

  /** The message a streamed request fails with, if it fails. */
  function StreamError(reply: StreamReply): (e: Option<string>)
    ensures e.None? <==> reply.StreamResponse? && IsOk(reply.status) && reply.readError.None?
  {
    match reply
    case StreamRejected(m) => Some(m)
    case StreamResponse(status, _, readError) =>
      if !IsOk(status) then Some(HttpErrorMessage(status)) else readError
  }

  /** The display after each chunk: after the k-th chunk it holds the first k chunks joined. */
  function Frames(chunks: seq<string>): (frames: seq<string>)
    ensures |frames| == |chunks|
    ensures forall k :: 0 <= k < |frames| ==> frames[k] == Join(chunks[..k + 1])
  {
    if chunks == [] then []
    else
      var init := chunks[..|chunks| - 1];
      assert forall n :: 0 <= n <= |init| ==> init[..n] == chunks[..n];
      assert chunks[..|chunks|] == chunks;
      Frames(init) + [Join(chunks)]
  }

  /**
   * Every value a streamed request writes into the display, in order: the display is
   * cleared before the request, then (for an ok response) set after each chunk, then
   * replaced by the error text if the request failed.
   */
  function StreamedWrites(k: Kind, reply: StreamReply): (w: seq<string>)
  {
    [""] + SettleWrites(k, reply)
  }

  /** The writes after the display was cleared: the frames of an ok response, then the error text if any. */
  function SettleWrites(k: Kind, reply: StreamReply): (w: seq<string>)
  {
    (if reply.StreamResponse? && IsOk(reply.status) then Frames(reply.chunks) else [])
    + (match StreamError(reply) case Some(m) => [ErrorPrefix(k) + m] case None => [])
  }

  /** The display once a streamed request has settled. */
  function StreamedText(k: Kind, reply: StreamReply): (text: string)
    ensures StreamError(reply).None? ==> text == Join(reply.chunks)
    ensures StreamError(reply).Some? ==> text == ErrorPrefix(k) + StreamError(reply).value
  {
    match StreamError(reply)
    case Some(m) => ErrorPrefix(k) + m
    case None => Join(reply.chunks)
  }

  /** The display starts cleared and its last write is the settled text. */
  lemma StreamedWritesSettle(k: Kind, reply: StreamReply)
    ensures var w := StreamedWrites(k, reply);
      |w| >= 1 && w[0] == "" && w[|w| - 1] == StreamedText(k, reply)
  {
    if StreamError(reply).None? {
      var chunks := reply.chunks;
      if chunks != [] {
        assert chunks[..|chunks|] == chunks;
      }
    }
  }

  /** Progressive rendering only extends: an earlier frame is a prefix of every later one. */
  lemma FramesExtend(chunks: seq<string>, i: nat, j: nat)
    requires i <= j < |chunks|
    ensures Frames(chunks)[i] <= Frames(chunks)[j]
  {
    var a, b := chunks[..i + 1], chunks[i + 1..j + 1];
    assert chunks[..j + 1] == a + b;
    JoinAppend(a, b);
  }

  /** Fragments "Hel" and "lo" show "", then "Hel", then "Hello". */
  lemma StreamedHello(k: Kind)
    requires IsStreamed(k)
    ensures StreamedWrites(k, StreamResponse(200, ["Hel", "lo"], None)) == ["", "Hel", "Hello"]
  {
    var chunks := ["Hel", "lo"];
    assert Join(chunks[..1]) == "Hel" by {
      assert chunks[..1] == ["Hel"];
      assert ["Hel"][..0] == [];
    }
    assert Join(chunks[..2]) == "Hello" by {
      assert chunks[..2] == chunks;
      assert chunks[..1] == ["Hel"];
      assert ["Hel"][..0] == [];
    }
  }

  /** What the ask AI request got back. */
  datatype AnswerReply =
    | AnswerRejected(message: string)
    | AnswerResponse(status: int, body: AnswerBody)

  /** The body of an ok ask AI response: its `answer` member, or the error `response.json()` threw. */
  datatype AnswerBody = AnswerField(answer: string) | UnreadableBody(message: string)

  /** The display once the ask AI request has settled: the answer, or the prefixed error. */
  function AnswerText(reply: AnswerReply): (text: string)
    ensures reply.AnswerResponse? && IsOk(reply.status) && reply.body.AnswerField? ==> text == reply.body.answer
    ensures !(reply.AnswerResponse? && IsOk(reply.status) && reply.body.AnswerField?) ==> ErrorPrefix(AskAI) <= text
    ensures reply.AnswerResponse? && !IsOk(reply.status) ==> text == ErrorPrefix(AskAI) + HttpErrorMessage(reply.status)
    ensures reply.AnswerRejected? ==> text == ErrorPrefix(AskAI) + reply.message
    ensures reply.AnswerResponse? && IsOk(reply.status) && reply.body.UnreadableBody? ==>
              text == ErrorPrefix(AskAI) + reply.body.message
  {
    match reply
    case AnswerRejected(m) => ErrorPrefix(AskAI) + m
    case AnswerResponse(status, body) =>
      if !IsOk(status) then ErrorPrefix(AskAI) + HttpErrorMessage(status)
      else match body
        case AnswerField(a) => a
        case UnreadableBody(m) => ErrorPrefix(AskAI) + m
  }
}

=== FILE: json.dfy ===
/**
 * JSON values as both sides of the status channel see them after parsing, and the
 * truthiness Python gives them. Parsing text into a value is not modelled: an inbound
 * frame is either a parsed value or a parse failure.
 */
module Json {
  import opened Wrappers

  datatype JsonValue =
    | JNull
    | JBool(b: bool)
    | JInt(i: int)
    | JFloat(x: real)
    | JStr(s: string)
    | JArr(items: seq<JsonValue>)
    | JObj(fields: map<string, JsonValue>)

  /** One received text frame: what `json.loads` / `JSON.parse` made of it. */
  datatype Inbound = Unparseable | Parsed(value: JsonValue)

  /** `obj.get(key)` on an object (a missing key, like a non-object, gives None). */
  function Field(v: JsonValue, key: string): (r: Option<JsonValue>)
    ensures r.Some? <==> v.JObj? && key in v.fields
    ensures r.Some? ==> r.value == v.fields[key]
  {
    if v.JObj? && key in v.fields then Some(v.fields[key]) else None
  }

  /** Python's `bool(x)` for the value `json.loads` produces; a missing key (`None`) is false. */
  predicate PyTruthy(v: Option<JsonValue>)
  {
    match v
    case None => false
    case Some(JNull) => false
    case Some(JBool(b)) => b
    case Some(JInt(i)) => i != 0
    case Some(JFloat(x)) => x != 0.0
    case Some(JStr(s)) => s != ""
    case Some(JArr(items)) => items != []
    case Some(JObj(fields)) => fields != map[]
  }

  /** True when the parsed frame is an object whose "type" member is the string `t`. */
  predicate HasType(msg: Inbound, t: string)
  {
    msg.Parsed? && Field(msg.value, "type") == Some(JStr(t))
  }
}

=== FILE: protocol.dfy ===
/**
 * The two ends of the app put together: what the server makes of the frames the page sends
 * on the status channel, what the page makes of the server's frames, and what the page
 * shows for the server's error replies.
 */
module Protocol {
  import opened Wrappers
  import opened Strings
  import opened Json
  import opened StatusIndicator
  import opened Enhancement
  import opened StatusChannel
  import Client
  import Endpoints

  /** `json.dumps` of a server frame, as the JSON value the page parses back. */
  function OutboundJson(o: Outbound): (v: JsonValue)
    ensures v.JObj? && "type" in v.fields
  {
    match o
    case Status(s, None) => JObj(map["type" := JStr("status"), "status" := JStr(s)])
    case Status(s, Some(m)) => JObj(map["type" := JStr("status"), "status" := JStr(s), "message" := JStr(m)])
    case Pong => JObj(map["type" := JStr("pong")])
  }

  /** The reply the server owes each envelope the page sends. */
  function Answer(e: Client.Envelope): Outbound
  {
    match e
    case Ping => Pong
    case RecordingStatus(b) => Status(if b then "recording" else "idle", None)
  }

  /** The frames the server receives for a log of envelopes. */
  function EnvelopeFrames(sent: seq<Client.Envelope>): seq<Inbound>
  {
    seq(|sent|, i requires 0 <= i < |sent| => Parsed(Client.EnvelopeJson(sent[i])))
  }

  /** Every envelope the page sends is answered by the server with exactly the reply it owes. */
  lemma EnvelopeAnswered(e: Client.Envelope)
    ensures Dispatch(Parsed(Client.EnvelopeJson(e))) == Reply(Answer(e))
  {
    match e
    case Ping =>
      assert Field(Client.EnvelopeJson(e), "type") == Some(JStr("ping"));
    case RecordingStatus(b) =>
      var v := Client.EnvelopeJson(e);
      assert Field(v, "type") == Some(JStr("recording_status"));
      assert Field(v, "type") != Some(JStr("ping"));
      assert Field(v, "recording") == Some(JBool(b));
  }

  /**
   * Over a whole connection, the page's envelopes never end the server's loop, and the
   * server answers each of them once, in order, after its greeting.
   */
  lemma {:induction false} ClientLogAnswered(sent: seq<Client.Envelope>)
    ensures Replies(EnvelopeFrames(sent)) == seq(|sent|, i requires 0 <= i < |sent| => Answer(sent[i]))
  {
    if sent != [] {
      EnvelopeAnswered(sent[0]);
      assert EnvelopeFrames(sent)[1..] == EnvelopeFrames(sent[1..]);
      ClientLogAnswered(sent[1..]);
    }
  }

  /** No frame the page sends ever ends the server's receive loop. */
  lemma EnvelopesNeverEndLoop(sent: seq<Client.Envelope>)
    ensures NoAbort(EnvelopeFrames(sent))
  {
    forall j | 0 <= j < |sent|
      ensures !Dispatch(EnvelopeFrames(sent)[j]).Abort?
    {
      EnvelopeAnswered(sent[j]);
    }
  }

  /** The page's dot after a server status frame is the one for the status it carries. */
  lemma StatusFrameSetsDot(s: string, m: Option<string>)
    ensures var msg := Parsed(OutboundJson(Status(s, m)));
      HasType(msg, "status") && IndicatorForField(Field(msg.value, "status")) == IndicatorFor(s)
  {
    var v := OutboundJson(Status(s, m));
    assert Field(v, "type") == Some(JStr("status"));
    assert Field(v, "status") == Some(JStr(s));
  }

  /** A pong changes nothing on the page. */
  lemma PongIsIgnored()
    ensures !HasType(Parsed(OutboundJson(Pong)), "status")
  {
    assert Field(OutboundJson(Pong), "type") == Some(JStr("pong"));
  }

  /** The greeting turns the page's dot green, with the `connected` class. */
  lemma GreetingShowsConnected()
    ensures IndicatorForField(Field(OutboundJson(Greeting), "status")) == Indicator(Some("connected"), Green)
  {
    StatusFrameSetsDot("connected", Some("WebSocket connected - ready for recording"));
  }

  /**
   * The server's reply to a recording-status envelope puts the page's dot in the matching
   * state: orange with the 'connecting' class for a start, green with the 'idle' class for
   * a stop.
   */
  lemma RecordingStatusEchoed(b: bool)
    ensures var o := Answer(Client.RecordingStatus(b));
      var dot := IndicatorForField(Field(OutboundJson(o), "status"));
      dot.color == (if b then Orange else Green) &&
      dot.cssClass == Some(if b then "connecting" else "idle")
  {
    StatusFrameSetsDot(if b then "recording" else "idle", None);
  }

  /** The message the page builds for a 500. */
  lemma Status500Text()
    ensures HttpErrorMessage(500) == "HTTP error! status: 500"
  {
    assert NatToString(5) == "5";
    assert NatToString(50) == "50";
    assert NatToString(500) == "500";
  }

  /**
   * A missing prompt reaches the page as a 500 before any model output: the streamed
   * buttons show their error prefix and "HTTP error! status: 500", and so does ask AI.
   */
  lemma MissingPromptShown(k: Kind, prompts: Endpoints.Prompts, text: string, body: AnswerBody)
    requires Endpoints.PromptKey(k) !in prompts
    ensures Endpoints.Admit(k, prompts, text).Refused?
    ensures var status := Endpoints.Admit(k, prompts, text).reply.status;
      && (IsStreamed(k) ==> StreamedText(k, StreamResponse(status, [], None)) == ErrorPrefix(k) + "HTTP error! status: 500")
      && (k == AskAI ==> AnswerText(AnswerResponse(status, body)) == ErrorPrefix(AskAI) + "HTTP error! status: 500")
  {
    Status500Text();
  }

  /**
   * A transcription that fails on the server shows on the page with the prefix twice and
   * the response's status text (not the server's detail).
   */
  lemma FailedTranscriptionShown(call: Endpoints.WhisperCall, statusText: string, body: Client.UploadBody)
    requires Endpoints.TranscribeReply(call).HttpError?
    ensures var status := Endpoints.TranscribeReply(call).status;
      Client.TranscriptAfterUpload(Client.UploadResponse(status, statusText, body))
        == Client.TranscriptionFailed + Client.TranscriptionFailed + statusText
  {
  }

  /** A text transcription reaches the page's transcript unchanged. */
  lemma TranscriptionShown(call: Endpoints.WhisperCall, statusText: string)
    requires !call.WhisperRaised? && Endpoints.Normalise(call).JStr?
    ensures Endpoints.TranscribeReply(call) == Endpoints.Ok(JObj(map["transcription" := Endpoints.Normalise(call)]))
    ensures var t := Endpoints.Normalise(call).s;
      Client.TranscriptAfterUpload(Client.UploadResponse(200, statusText, Client.TranscriptionField(t))) == t
  {
  }
}

=== FILE: status_channel.dfy ===
/**
 * The server side of the status channel (`websocket_endpoint`): after accepting the
 * connection it greets the page with a `connected` status, then answers each received
 * frame with at most one frame of its own, and gives up on the connection at the first
 * frame it cannot handle.
 *
 * The connection is modelled by the sequence of frames the page sends before it goes away;
 * sending never fails.
 */
module StatusChannel {
  import opened Wrappers
  import opened Json

  /** The frames the server sends. */
  datatype Outbound =
    | Status(status: string, message: Option<string>)
    | Pong

  /** The first frame on every connection. */
  const Greeting := Status("connected", Some("WebSocket connected - ready for recording"))

  /** What one received frame leads to: a reply, silence, or the end of the loop. */
  datatype Step = Reply(out: Outbound) | NoReply | Abort

  /**
   * One turn of the receive loop. A frame that does not parse, or parses to something other
   * than an object (so that `.get` raises), ends the loop; `ping` is answered with `pong`;
   * `recording_status` is answered with `recording` when its `recording` member is truthy
   * and `idle` otherwise; every other object is ignored.
   */
  function Dispatch(msg: Inbound): (d: Step)
    ensures d.Abort? <==> !(msg.Parsed? && msg.value.JObj?)
    ensures d == Reply(Pong) <==> HasType(msg, "ping")
    ensures d.Reply? && d.out.Status? <==> HasType(msg, "recording_status")
    ensures HasType(msg, "recording_status") ==>
              d == Reply(Status(if PyTruthy(Field(msg.value, "recording")) then "recording" else "idle", None))
    ensures d.NoReply? <==> msg.Parsed? && msg.value.JObj? && !HasType(msg, "ping") && !HasType(msg, "recording_status")
  {
    if !(msg.Parsed? && msg.value.JObj?) then Abort
    else if Field(msg.value, "type") == Some(JStr("ping")) then Reply(Pong)
    else if Field(msg.value, "type") == Some(JStr("recording_status")) then
      Reply(Status(if PyTruthy(Field(msg.value, "recording")) then "recording" else "idle", None))
    else NoReply
  }

  /** The replies to a run of frames, up to (not including) the first one that ends the loop. */
  function Replies(inbox: seq<Inbound>): seq<Outbound>
  {
    if inbox == [] then []
    else match Dispatch(inbox[0])
      case Abort => []
      case NoReply => Replies(inbox[1..])
      case Reply(o) => [o] + Replies(inbox[1..])
  }

  /** True when no frame of `inbox` ends the loop. */
  predicate NoAbort(inbox: seq<Inbound>)
  {
    forall j :: 0 <= j < |inbox| ==> !Dispatch(inbox[j]).Abort?
  }

  /**
   * The receive loop over the frames the page sends. `handled` is the number of frames
   * handled without ending the loop: all of them, or those before the first frame that
   * ends it, which is then `inbox[handled]`.
   */
  method ServeStatusChannel(inbox: seq<Inbound>) returns (outbox: seq<Outbound>, handled: nat)
    ensures outbox == [Greeting] + Replies(inbox)
    ensures handled <= |inbox|
    ensures NoAbort(inbox[..handled])
    ensures handled < |inbox| ==> Dispatch(inbox[handled]).Abort?
  {
    outbox := [Greeting];
    var i := 0;
    while i < |inbox|
      invariant 0 <= i <= |inbox|
      invariant NoAbort(inbox[..i])
      invariant outbox + Replies(inbox[i..]) == [Greeting] + Replies(inbox)
    {
      var step := Dispatch(inbox[i]);
      assert inbox[i..][0] == inbox[i] && inbox[i..][1..] == inbox[i + 1..];
      match step {
        case Abort =>
          return outbox, i;
        case NoReply =>
        case Reply(o) =>
          outbox := outbox + [o];
      }
      assert inbox[..i + 1] == inbox[..i] + [inbox[i]];
      i := i + 1;
    }
    assert inbox[i..] == [];
    handled := i;
  }

  /** No run of frames gets more replies than it has frames. */
  lemma {:induction false} RepliesBound(inbox: seq<Inbound>)
    ensures |Replies(inbox)| <= |inbox|
  {
    if inbox != [] {
      RepliesBound(inbox[1..]);
    }
  }

  /** Before the first frame that ends the loop, the replies to two runs of frames are the replies to each. */
  lemma {:induction false} RepliesAppend(a: seq<Inbound>, b: seq<Inbound>)
    requires NoAbort(a)
    ensures Replies(a + b) == Replies(a) + Replies(b)
  {
    if a != [] {
      assert (a + b)[0] == a[0] && (a + b)[1..] == a[1..] + b;
      RepliesAppend(a[1..], b);
    } else {
      assert a + b == b;
    }
  }

  /** Whatever follows a frame that ends the loop never gets a reply. */
  lemma {:induction false} RepliesStopAtAbort(a: seq<Inbound>, m: Inbound, b: seq<Inbound>)
    requires Dispatch(m).Abort?
    ensures Replies(a + [m] + b) == Replies(a + [m])
  {
    if a == [] {
      assert ([m] + b)[0] == m && [m][0] == m;
    } else {
      assert (a + [m] + b)[0] == a[0] && (a + [m] + b)[1..] == a[1..] + [m] + b;
      assert (a + [m])[0] == a[0] && (a + [m])[1..] == a[1..] + [m];
      RepliesStopAtAbort(a[1..], m, b);
    }
  }

  /** Each ping before the loop ends is answered by exactly one pong, in its place. */
  lemma PingGetsOnePong(a: seq<Inbound>, m: Inbound, b: seq<Inbound>)
    requires NoAbort(a) && HasType(m, "ping")
    ensures Replies(a + [m] + b) == Replies(a) + [Pong] + Replies(b)
  {
    RepliesAppend(a, [m] + b);
    assert a + [m] + b == a + ([m] + b);
    assert ([m] + b)[0] == m && ([m] + b)[1..] == b;
  }

  /** A frame of any other type is skipped without a reply, and the loop goes on. */
  lemma OtherTypeIsSilent(a: seq<Inbound>, m: Inbound, b: seq<Inbound>)
    requires NoAbort(a) && m.Parsed? && m.value.JObj? && !HasType(m, "ping") && !HasType(m, "recording_status")
    ensures Replies(a + [m] + b) == Replies(a) + Replies(b)
  {
    RepliesAppend(a, [m] + b);
    assert a + [m] + b == a + ([m] + b);
    assert ([m] + b)[0] == m && ([m] + b)[1..] == b;
  }
}

=== FILE: status_indicator.dfy ===
/**
 * The connection status dot of the client page (`updateConnectionStatus`): the status
 * string selects one CSS class among 'connected', 'connecting' and 'idle' (all three are
 * removed first) and a background colour.
 */
module StatusIndicator {
  import opened Wrappers
  import opened Json

  const Green := "#34C759"
  const Orange := "#FF9500"
  const Blue := "#007AFF"
  const Red := "#FF3B30"

  /** The dot as the DOM shows it: the one managed class it carries, if any, and its colour. */
  datatype Indicator = Indicator(cssClass: Option<string>, color: string)

  /** The four status values the switch knows; everything else falls to its default branch. */
  predicate IsKnownStatus(status: string)
  {
    status == "connected" || status == "recording" || status == "processing" || status == "idle"
  }

  /** The default branch: no managed class, red. */
  const Disconnected := Indicator(None, Red)

  /**
   * 'connected' and 'idle' are green, 'recording' orange, 'processing' blue, anything else
   * red; the class is 'connected' or 'idle' for the first two, 'connecting' while busy, and
   * none for an unknown status.
   */
  function IndicatorFor(status: string): (r: Indicator)
    ensures r.color == Green <==> status == "connected" || status == "idle"
    ensures r.color == Orange <==> status == "recording"
    ensures r.color == Blue <==> status == "processing"
    ensures r.color == Red <==> !IsKnownStatus(status)
    ensures r.cssClass == None <==> !IsKnownStatus(status)
    ensures r.cssClass == Some("connecting") <==> status == "recording" || status == "processing"
    ensures r.cssClass == Some("connected") <==> status == "connected"
    ensures r.cssClass == Some("idle") <==> status == "idle"
    ensures !IsKnownStatus(status) ==> r == Disconnected
  {
    match status
    case "connected" => Indicator(Some("connected"), Green)
    case "recording" => Indicator(Some("connecting"), Orange)
    case "processing" => Indicator(Some("connecting"), Blue)
    case "idle" => Indicator(Some("idle"), Green)
    case _ => Disconnected
  }

  /**
   * The dot after an inbound `status` push: the switch compares with `===`, so a status
   * member that is missing or is not a string takes the default branch.
   */
  function IndicatorForField(status: Option<JsonValue>): (r: Indicator)
    ensures r != Disconnected <==> status.Some? && status.value.JStr? && IsKnownStatus(status.value.s)
    ensures status.Some? && status.value.JStr? ==> r == IndicatorFor(status.value.s)
    ensures !(status.Some? && status.value.JStr?) ==> r == Disconnected
  {
    match status
    case Some(JStr(s)) => IndicatorFor(s)
    case _ => Disconnected
  }
}

=== FILE: strings.dfy ===
/**
 * Text helpers with the semantics of the JavaScript built-ins the client relies on:
 * `Number.prototype.toString` on integers, `String.prototype.padStart`,
 * `String.prototype.trim`, and `+=` string accumulation (`Join`).
 */
module Strings {

  predicate IsDigit(c: char) { '0' <= c <= '9' }

  predicate AllDigits(s: string) { forall i :: 0 <= i < |s| ==> IsDigit(s[i]) }

  function DigitChar(d: nat): (c: char)
    requires d < 10
    ensures IsDigit(c)
  {
    (48 + d) as char
  }

  function DigitValue(c: char): (d: nat)
    requires IsDigit(c)
    ensures d < 10
  {
    c as int - 48
  }

  /** Decimal text of a non-negative integer, as `toString()` prints it: no sign, no leading zero. */
  function NatToString(n: nat): (s: string)
    ensures |s| >= 1 && AllDigits(s)
    ensures s[0] == '0' ==> n == 0
    ensures n < 10 <==> |s| == 1
  {
    if n < 10 then [DigitChar(n)] else NatToString(n / 10) + [DigitChar(n % 10)]
  }

  /** `toString()` of any integer: a minus sign in front of the magnitude when negative. */
  function IntToString(i: int): (s: string)
    ensures |s| >= 1
    ensures s[0] == '-' <==> i < 0
    ensures i >= 0 ==> s == NatToString(i)
    ensures i < 0 ==> |s| >= 2 && s[1..] == NatToString(-i)
  {
    if i < 0 then "-" + NatToString(-i) else NatToString(i)
  }

  /** The value of a digit string read most significant digit first; the empty string reads as 0. */
  function ParseNat(s: string): nat
    requires AllDigits(s)
  {
    if s == [] then 0 else ParseNat(s[..|s| - 1]) * 10 + DigitValue(s[|s| - 1])
  }

  /** Reading back the printed decimal gives the number printed. */
  lemma {:induction false} ParseNatToString(n: nat)
    ensures ParseNat(NatToString(n)) == n
  {
    if n >= 10 {
      var s := NatToString(n);
      assert s[..|s| - 1] == NatToString(n / 10);
      ParseNatToString(n / 10);
    }
  }

  /** A leading '0' does not change the value read back. */
  lemma {:induction false} ParseNatLeadingZero(s: string)
    requires AllDigits(s)
    ensures AllDigits("0" + s) && ParseNat("0" + s) == ParseNat(s)
  {
    if s != [] {
      assert ("0" + s)[..|s|] == "0" + s[..|s| - 1];
      ParseNatLeadingZero(s[..|s| - 1]);
    }
  }

  /**
   * `s.padStart(width, fill)` with a one-character fill: the fill is repeated in front of
   * `s` until the result is `width` long; a string already that long is returned as it is.
   */
  function PadStart(s: string, width: nat, fill: char): (r: string)
    ensures |r| == if |s| >= width then |s| else width
    ensures forall i :: 0 <= i < |r| - |s| ==> r[i] == fill
  {
    if |s| >= width then s else seq(width - |s|, _ => fill) + s
  }

  /** Padding only adds in front: the padded text ends with the original text. */
  lemma PadStartKeepsText(s: string, width: nat, fill: char)
    ensures var r := PadStart(s, width, fill);
      r[|r| - |s|..] == s
  {
  }

  /** The characters `trim()` removes: ECMAScript WhiteSpace and LineTerminator. */
  predicate IsJsWhitespace(c: char)
  {
    || c == '\t' || c == '\n' || c == '\U{000B}' || c == '\U{000C}' || c == '\r'
    || c == ' ' || c == '\U{00A0}' || c == '\U{1680}'
    || ('\U{2000}' <= c <= '\U{200A}')
    || c == '\U{2028}' || c == '\U{2029}' || c == '\U{202F}' || c == '\U{205F}'
    || c == '\U{3000}' || c == '\U{FEFF}'
  }

  /** Drops leading whitespace. */
  function TrimStart(s: string): string
  {
    if s != [] && IsJsWhitespace(s[0]) then TrimStart(s[1..]) else s
  }

  /** Drops trailing whitespace. */
  function TrimEnd(s: string): string
  {
    if s != [] && IsJsWhitespace(s[|s| - 1]) then TrimEnd(s[..|s| - 1]) else s
  }

  /** What TrimStart leaves is a suffix of `s` that does not start with whitespace, and all it drops is whitespace. */
  lemma {:induction false} TrimStartSpec(s: string)
    ensures var r := TrimStart(s);
      && |r| <= |s| && r == s[|s| - |r|..]
      && (forall i :: 0 <= i < |s| - |r| ==> IsJsWhitespace(s[i]))
      && (r != [] ==> !IsJsWhitespace(r[0]))
  {
    if s != [] && IsJsWhitespace(s[0]) {
      var t := s[1..];
      TrimStartSpec(t);
      var r := TrimStart(t);
      assert TrimStart(s) == r;
      assert s[|s| - |r|..] == t[|t| - |r|..];
      forall i | 0 <= i < |s| - |r|
        ensures IsJsWhitespace(s[i])
      {
        if i > 0 {
          assert s[i] == t[i - 1];
        }
      }
    }
  }

  /** What TrimEnd leaves is a prefix of `s` that does not end with whitespace, and all it drops is whitespace. */
  lemma {:induction false} TrimEndSpec(s: string)
    ensures var r := TrimEnd(s);
      && |r| <= |s| && r == s[..|r|]
      && (forall i :: |r| <= i < |s| ==> IsJsWhitespace(s[i]))
      && (r != [] ==> !IsJsWhitespace(r[|r| - 1]))
  {
    if s != [] && IsJsWhitespace(s[|s| - 1]) {
      var t := s[..|s| - 1];
      TrimEndSpec(t);
      var r := TrimEnd(t);
      assert TrimEnd(s) == r;
      assert s[..|r|] == t[..|r|];
      forall i | |r| <= i < |s|
        ensures IsJsWhitespace(s[i])
      {
        if i < |t| {
          assert s[i] == t[i];
        }
      }
    }
  }

  /** `s.trim()`. */
  function Trim(s: string): string
  {
    TrimEnd(TrimStart(s))
  }

  /** True when `s.trim()` is empty, the guard every enhancement handler starts with. */
  predicate IsBlank(s: string)
  {
    Trim(s) == ""
  }

  /** `s.trim()` is empty exactly when every character of `s` is whitespace. */
  lemma BlankIffAllWhitespace(s: string)
    ensures IsBlank(s) <==> forall i :: 0 <= i < |s| ==> IsJsWhitespace(s[i])
  {
    TrimStartSpec(s);
    TrimEndSpec(TrimStart(s));
  }

  /** Concatenation of the parts in order, built the way `result += chunk` builds it. */
  function Join<T>(parts: seq<seq<T>>): seq<T>
  {
    if parts == [] then [] else Join(parts[..|parts| - 1]) + parts[|parts| - 1]
  }

  /** Joining is a monoid homomorphism: joining a concatenation joins the two halves. */
  lemma {:induction false} JoinAppend<T>(a: seq<seq<T>>, b: seq<seq<T>>)
    ensures Join(a + b) == Join(a) + Join(b)
  {
    if b != [] {
      assert (a + b)[..|a + b| - 1] == a + b[..|b| - 1];
      JoinAppend(a, b[..|b| - 1]);
    } else {
      assert a + b == a;
    }
  }

  /** The parts that are not empty, in their original order (the `size > 0` filter). */
  function NonEmpty<T>(parts: seq<seq<T>>): seq<seq<T>>
  {
    if parts == [] then []
    else NonEmpty(parts[..|parts| - 1]) + (if |parts[|parts| - 1]| > 0 then [parts[|parts| - 1]] else [])
  }

  /** NonEmpty keeps no more parts than it is given, and none of those it keeps is empty. */
  lemma {:induction false} NonEmptySpec<T>(parts: seq<seq<T>>)
    ensures |NonEmpty(parts)| <= |parts|
    ensures forall i :: 0 <= i < |NonEmpty(parts)| ==> |NonEmpty(parts)[i]| > 0
  {
    if parts != [] {
      NonEmptySpec(parts[..|parts| - 1]);
    }
  }

  /** Dropping empty parts distributes over concatenation. */
  lemma {:induction false} NonEmptyAppend<T>(a: seq<seq<T>>, b: seq<seq<T>>)
    ensures NonEmpty(a + b) == NonEmpty(a) + NonEmpty(b)
  {
    if b == [] {
      assert a + b == a;
    } else {
      assert (a + b)[..|a + b| - 1] == a + b[..|b| - 1];
      NonEmptyAppend(a, b[..|b| - 1]);
    }
  }

  /** Leaving out empty parts does not change the concatenation. */
  lemma {:induction false} JoinNonEmpty<T>(parts: seq<seq<T>>)
    ensures Join(NonEmpty(parts)) == Join(parts)
  {
    if parts != [] {
      var init, last := parts[..|parts| - 1], parts[|parts| - 1];
      JoinNonEmpty(init);
      JoinAppend(NonEmpty(init), if |last| > 0 then [last] else []);
      if |last| > 0 {
        assert Join([last]) == last by {
          assert [last][..0] == [];
        }
      }
    }
  }
}

=== FILE: timer.dfy ===
/**
 * The recording timer of the client page (`startTimer`): the display is reset to "00:00"
 * and then, once a second, shows the elapsed milliseconds as minutes and seconds, each
 * left-padded with '0' to two characters.
 */
module Timer {
  import opened Strings

  const MsPerMinute: nat := 60000
  const MsPerSecond: nat := 1000

  /** What the display shows the moment a recording starts. */
  const ResetText := "00:00"

  /** The quotient rounded toward zero, the one JavaScript's `%` pairs with. */
  function TruncDiv(a: int, b: int): int
    requires b > 0
  {
    if a >= 0 then a / b else -((-a) / b)
  }

  /**
   * JavaScript's `%` on integers: `a` is the divisor times the truncated quotient plus the
   * remainder, and the remainder takes the sign of the dividend.
   */
  function JsRemainder(a: int, b: int): (r: int)
    requires b > 0
    ensures -b < r < b
    ensures a >= 0 ==> r == a % b
    ensures a < 0 ==> r <= 0
    ensures a == b * TruncDiv(a, b) + r
  {
    if a >= 0 then a % b else -((-a) % b)
  }

  function Pad2(s: string): string
  {
    PadStart(s, 2, '0')
  }

  /** `Math.floor(elapsed / 60000)`: Dafny's `/` by a positive divisor already rounds down. */
  function MinutesOf(elapsed: int): (m: int)
    ensures m * 60000 <= elapsed < m * 60000 + 60000
  {
    elapsed / MsPerMinute
  }

  /** `Math.floor((elapsed % 60000) / 1000)` with JavaScript's `%`. */
  function SecondsOf(elapsed: int): (s: int)
    ensures elapsed >= 0 ==> s == (elapsed % MsPerMinute) / MsPerSecond && 0 <= s < 60
    ensures elapsed < 0 ==> -60 <= s <= 0
  {
    JsRemainder(elapsed, MsPerMinute) / MsPerSecond
  }

  /** The text shown after `elapsed` milliseconds: the minutes and the seconds, each padded to two places. */
  function FormatElapsed(elapsed: int): string
  {
    Pad2(IntToString(MinutesOf(elapsed))) + ":" + Pad2(IntToString(SecondsOf(elapsed)))
  }

  /** The seconds field of a non-negative elapsed time is always two digits in 00..59. */
  lemma SecondsField(s: nat)
    requires s < 60
    ensures var t := Pad2(NatToString(s));
      |t| == 2 && AllDigits(t) && ParseNat(t) == s
  {
    var d := NatToString(s);
    ParseNatToString(s);
    if s < 10 {
      ParseNatLeadingZero(d);
      assert Pad2(d) == "0" + d;
    } else {
      assert NatToString(s / 10) == [DigitChar(s / 10)];
    }
  }

  /** The minutes field is the minute count, zero-padded to at least two digits. */
  lemma MinutesField(m: nat)
    ensures var t := Pad2(NatToString(m));
      |t| >= 2 && AllDigits(t) && ParseNat(t) == m
  {
    var d := NatToString(m);
    ParseNatToString(m);
    if |d| < 2 {
      ParseNatLeadingZero(d);
      assert Pad2(d) == "0" + d;
    }
  }

  /** `MM:SS` built from two digit fields reads back as both: the seconds field is the last two characters. */
  lemma ClockTextReadsBack(mm: string, ss: string, m: nat, s: nat)
    requires |mm| >= 2 && AllDigits(mm) && ParseNat(mm) == m
    requires |ss| == 2 && AllDigits(ss) && ParseNat(ss) == s
    ensures var t := mm + ":" + ss;
      && |t| >= 5
      && t[|t| - 3] == ':'
      && AllDigits(t[..|t| - 3]) && ParseNat(t[..|t| - 3]) == m
      && AllDigits(t[|t| - 2..]) && ParseNat(t[|t| - 2..]) == s
  {
    var t := mm + ":" + ss;
    assert t[..|t| - 3] == mm;
    assert t[|t| - 2..] == ss;
  }

  /**
   * For a non-negative elapsed time the display reads back as `MM:SS`: everything before the
   * last three characters is the minute count `elapsed / 60000`, then a ':' and exactly two
   * digits of seconds `(elapsed % 60000) / 1000`, which lie in 0..59.
   */
  lemma FormatElapsedReadsBack(elapsed: int)
    requires elapsed >= 0
    ensures var t := FormatElapsed(elapsed);
      && |t| >= 5
      && t[|t| - 3] == ':'
      && AllDigits(t[..|t| - 3]) && ParseNat(t[..|t| - 3]) == MinutesOf(elapsed)
      && AllDigits(t[|t| - 2..]) && ParseNat(t[|t| - 2..]) == SecondsOf(elapsed)
  {
    var m, s := MinutesOf(elapsed), SecondsOf(elapsed);
    assert 0 <= m && 0 <= s < 60;
    var mm, ss := Pad2(NatToString(m)), Pad2(NatToString(s));
    assert FormatElapsed(elapsed) == mm + ":" + ss by {
      assert IntToString(m) == NatToString(m);
      assert IntToString(s) == NatToString(s);
    }
    MinutesField(m);
    SecondsField(s);
    ClockTextReadsBack(mm, ss, m, s);
  }

  /** During the first second the ticking display agrees with the reset text. */
  lemma FirstSecondShowsReset(elapsed: int)
    requires 0 <= elapsed < MsPerSecond
    ensures FormatElapsed(elapsed) == ResetText
  {
    assert NatToString(0) == "0";
    assert Pad2("0") == "00";
  }

  /** A clock stepped backwards (a negative elapsed time) is shown with a leading minus sign. */
  lemma NegativeElapsedShowsMinus(elapsed: int)
    requires elapsed < 0
    ensures FormatElapsed(elapsed)[0] == '-'
  {
    var m := IntToString(MinutesOf(elapsed));
    assert Pad2(m) == m;
  }

  /**
   * With a negative elapsed time the seconds field is not confined to 00..59: 59001 ms
   * before the start the display reads "-1:-60".
   */
  lemma NegativeElapsedExample()
    ensures FormatElapsed(-59001) == "-1:-60"
  {
    assert MinutesOf(-59001) == -1;
    assert SecondsOf(-59001) == -60 by {
      assert JsRemainder(-59001, MsPerMinute) == -59001;
    }
    assert NatToString(1) == "1";
    assert NatToString(60) == "60" by {
      assert NatToString(6) == "6";
    }
  }
}

=== FILE: wrappers.dfy ===
/** The optional value used wherever the source has "missing" (`undefined`, `None`, a key not present). */
module Wrappers {

  datatype Option<+T> = None | Some(value: T)
}
